=== FILE: README.md ===
# Udgosh 3.0 registration form — a Dafny model

This project models the one piece of logic in the Udgosh 3.0 event website:
the registration page's form state, its client-side validation and its
submission flow. The page keeps a draft of seven text fields
(`formData`) and two flags, `isSubmitting` and `isSuccess`. Text inputs and
the stream radio group edit the draft. On submit, three checks run in a
fixed order and the first failure ends the attempt with an error toast:

1. all fields but the email address are non-empty;
2. the contact number is ten UTF-16 code units long;
3. `parseInt(participants) < 1`.

A draft that passes all three sets `isSubmitting` and sends one request to
the spreadsheet webhook. The request body copies the draft. A blank email
becomes "Not provided", and a timestamp is added. If the request does not
throw, the page sets `isSuccess`, shows the confirmation view and schedules
a redirect. If it throws, `isSubmitting` is cleared and the draft is kept
for another try.

Modules:

- `Wrappers` (`wrappers.dfy`): `Option`.
- `JsText` (`js_text.dfy`): the whitespace `parseInt` skips (ECMA-262
  sections 12.2 and 12.3), leading trimming, and `String.length` as a count
  of UTF-16 code units.
- `JsParseInt` (`js_parse_int.dfy`): `parseInt(string)` without a radix, as
  specified in section 19.2.5 of ECMA-262. It skips leading whitespace,
  reads one optional sign, switches to base 16 on a `0x`/`0X` prefix and
  reads the longest prefix of valid digits. No digits gives NaN, which is
  `None` here. The module also proves round trips against decimal and
  hexadecimal rendering.
- `RegistrationDraft` (`draft.dfy`): the draft, its initial value, and the
  two change handlers.
- `Validation` (`validation.dfy`): the three checks, their order and their
  messages.
- `Payload` (`payload.dfy`): the request body and the email sentinel.
- `Submission` (`submission.dfy`): the page as a state machine with three
  phases: Editing, Submitting and Succeeded. It includes event dispatch (the
  disabled submit button, the unmounted form after success) and event
  sequences.

The request's outcome (`Delivered` / `NetworkError`) and the timestamp are
inputs to the model. Toasts, the request and the redirect are recorded as
output values (`Effect`).

Behaviour of the code worth knowing, all of which the model keeps:

- **Non-numeric participant counts are accepted.** For text with no leading
  digits, `parseInt` yields NaN, and `NaN < 1` is false, so the check at
  Registration.tsx:48 passes (`Validation.UnreadableCountPasses`).
- **The three validation toasts have no trailing full stop**
  (Registration.tsx:39, 44, 49). The network-failure toast does end with
  one (Registration.tsx:87).
- **`stream` is free text.** It holds whatever string the radio group
  reports (Registration.tsx:31), and only its non-emptiness is checked
  (Registration.tsx:38).
- **The contact check counts UTF-16 code units, not characters.** Five
  characters outside the Basic Multilingual Plane pass it
  (`Validation.ContactLengthCountsCodeUnits`).

## Model

| member | source | states |
|---|---|---|
| JsText.TrimStart | event-registration-form-main/src/pages/Registration.tsx:48 | parseInt's first step removes exactly the leading run of ECMA-262 whitespace and line terminators: the result is a suffix, everything removed is whitespace, and the result does not start with whitespace |
| JsText.TrimStartSkipsWhiteSpace | event-registration-form-main/src/pages/Registration.tsx:48 | adding whitespace in front of the participants text never changes what parseInt goes on to read |
| JsText.Utf16Length | event-registration-form-main/src/pages/Registration.tsx:43 | a single character counts one unit in the Basic Multilingual Plane and two outside it; `.length` lies between the character count and twice it, and equals the character count exactly when every character is in the Basic Multilingual Plane |
| JsText.Utf16LengthOfConcat | event-registration-form-main/src/pages/Registration.tsx:43 | `.length` of a concatenation is the sum of the parts' lengths, which with the single-character case fixes the count for every string |
| JsParseInt.DigitPrefix | event-registration-form-main/src/pages/Registration.tsx:48 | parseInt reads the longest run of digits valid in the radix: a prefix of the input, all digits, and stopped by a non-digit or the end |
| JsParseInt.ValueZeroIff | event-registration-form-main/src/pages/Registration.tsx:48 | a digit string's value is zero exactly when every digit is `0` |
| JsParseInt.Evaluate | event-registration-form-main/src/pages/Registration.tsx:48 | no digits gives NaN; otherwise the result is zero exactly for all-zero digits and negative exactly for a `-` sign with some non-zero digit |
| JsParseInt.ParseInt | event-registration-form-main/src/pages/Registration.tsx:48 | `parseInt(participants)` is NaN exactly when no digits follow whitespace, sign and prefix; its sign and zeroness follow from the sign and the digits read |
| JsParseInt.ValueOfToDigits | event-registration-form-main/src/pages/Registration.tsx:48 | reading back the base-10 or base-16 digits of a number gives the number |
| JsParseInt.ParseIntOfDecimal | event-registration-form-main/src/pages/Registration.tsx:48 | parseInt inverts decimal rendering of any integer, with any leading whitespace and any trailing text that cannot continue the numeral |
| JsParseInt.ParseIntOfHex | event-registration-form-main/src/pages/Registration.tsx:48 | a `0x`-prefixed hexadecimal numeral, signed or not, is read in base 16 up to the first non-hexadecimal character |
| RegistrationDraft.FieldNamed | event-registration-form-main/src/pages/Registration.tsx:25-27 | an event's `name` denotes a field exactly when it is that field's property name |
| RegistrationDraft.Set | event-registration-form-main/src/pages/Registration.tsx:27 | the object spread replaces one field and keeps every other |
| RegistrationDraft.HandleInputChange | event-registration-form-main/src/pages/Registration.tsx:25-28 | after an input event, the field named by the event holds the new value and every other field holds its old value; an unknown name changes no field |
| RegistrationDraft.HandleStreamChange | event-registration-form-main/src/pages/Registration.tsx:30-32 | a stream change sets `stream` and leaves the other six fields unchanged |
| RegistrationDraft.StreamChangeIsInputChange | event-registration-form-main/src/pages/Registration.tsx:25-32 | the stream handler behaves as the generic handler for the name "stream" |
| RegistrationDraft.LastEditWins | event-registration-form-main/src/pages/Registration.tsx:27 | two edits of the same field leave the second value |
| RegistrationDraft.EditsOfDistinctFieldsCommute | event-registration-form-main/src/pages/Registration.tsx:27 | edits of differently named fields can be applied in either order |
| RegistrationDraft.EditWithCurrentValueIsNoOp | event-registration-form-main/src/pages/Registration.tsx:27 | re-entering a field's current value leaves the draft unchanged |
| Validation.Validate | event-registration-form-main/src/pages/Registration.tsx:37-51 | first failure wins: a missing required field is reported whatever else is wrong; the contact rejection needs all required fields present; the participants rejection needs both earlier checks passed; acceptance needs all three |
| Validation.MessagesAreDistinct | event-registration-form-main/src/pages/Registration.tsx:38-51 | the three rejection toasts are pairwise different, so the toast names the check that failed |
| Validation.ParticipantsBelowOneIff | event-registration-form-main/src/pages/Registration.tsx:48-51 | the participants check rejects exactly when digits were read and either the sign was `-` or every digit is zero; text with no digits passes |
| Validation.ContactCheckIsCharacterCount | event-registration-form-main/src/pages/Registration.tsx:43-46 | for Basic Multilingual Plane text, the contact check passes exactly at ten characters, whatever they are |
| Validation.ValidateIgnoresEmail | event-registration-form-main/src/pages/Registration.tsx:38 | the email field has no influence on the verdict, so it may be empty |
| Validation.AcceptsCompleteDraft | event-registration-form-main/src/pages/Registration.tsx:38-51 | a complete draft with a ten-unit contact and a participant count parsing to at least one is accepted |
| Validation.AcceptsUnreadableParticipants | event-registration-form-main/src/pages/Registration.tsx:48-51 | a complete draft whose participants text parses to NaN is accepted |
| Validation.ZeroCountRejected | event-registration-form-main/src/pages/Registration.tsx:48-51 | "0" is rejected |
| Validation.NegativeCountRejected | event-registration-form-main/src/pages/Registration.tsx:48-51 | "-3" is rejected |
| Validation.TrailingTextPasses | event-registration-form-main/src/pages/Registration.tsx:48-51 | "3x" passes, because it reads as 3 |
| Validation.LeadingSpacePasses | event-registration-form-main/src/pages/Registration.tsx:48-51 | " 5" passes, because it reads as 5 |
| Validation.HexCountPasses | event-registration-form-main/src/pages/Registration.tsx:48-51 | "0x10" passes, because it reads as 16 |
| Validation.UnreadableCountPasses | event-registration-form-main/src/pages/Registration.tsx:48-51 | "abc" passes, because NaN is not below one |
| Validation.ContactLengthIgnoresContent | event-registration-form-main/src/pages/Registration.tsx:43-46 | ten letters pass the contact check and an eleven-character number fails it |
| Validation.ContactLengthCountsCodeUnits | event-registration-form-main/src/pages/Registration.tsx:43-46 | five supplementary-plane characters pass the ten-digit check |
| Payload.EmailOrSentinel | event-registration-form-main/src/pages/Registration.tsx:70 | an empty email is sent as "Not provided", a non-empty email is sent as typed, so the sent email is never empty |
| Payload.BuildPayload | event-registration-form-main/src/pages/Registration.tsx:65-74 | the body copies six fields verbatim, carries the given timestamp, and sends "Not provided" exactly when the email is empty or is that very text |
| Payload.DraftOfBuildPayload | event-registration-form-main/src/pages/Registration.tsx:65-72 | the draft can be recovered from the body exactly when its email is not the sentinel text |
| Payload.BuildPayloadCollisions | event-registration-form-main/src/pages/Registration.tsx:65-72 | two drafts give the same body exactly when they differ at most in an email that is blank in one and "Not provided" in the other |
| Submission.HandleSubmit | event-registration-form-main/src/pages/Registration.tsx:34-76 | a rejected draft gives only its rejection toast, leaving flags and draft unchanged and sending no request; an accepted draft sets isSubmitting and sends exactly one request built from the draft |
| Submission.Resume | event-registration-form-main/src/pages/Registration.tsx:78-89 | delivery sets isSuccess, keeps isSubmitting, shows the success toast and schedules the 2000 ms redirect; a network error clears isSubmitting, keeps isSuccess and the draft, and shows the failure toast; neither sends a request |
| Submission.Dispatch | event-registration-form-main/src/pages/Registration.tsx:25-92 | until success, an input or stream event applies its change handler to the draft and has no other effect, even while submitting; a submit from Editing either sends exactly the request built from the current draft and timestamp or, when validation rejects, shows only that rejection's toast; a submit while submitting does nothing; a delivered settlement while submitting sets isSuccess and shows the success toast and schedules the redirect whatever the draft now holds; a network error while submitting returns to Editing with the draft kept and the failure toast; every event keeps flags consistent and moves only along Editing→Submitting→Succeeded or Submitting→Editing; a request is sent exactly when Editing becomes Submitting; Succeeded is entered only by a delivered settlement; nothing acts on a succeeded page |
| Submission.RunPreservesConsistent | event-registration-form-main/src/pages/Registration.tsx:53-88 | along any event sequence isSuccess never holds without isSubmitting |
| Submission.ReachableStatesAreConsistent | event-registration-form-main/src/pages/Registration.tsx:13-23 | every state reachable from the freshly mounted page is in one of the three phases |
| Submission.SucceededIsTerminal | event-registration-form-main/src/pages/Registration.tsx:92-118 | once succeeded, no sequence of events changes the page or has any effect |
| Submission.PostsAwaitSettlement | event-registration-form-main/src/pages/Registration.tsx:294-298 | over any event sequence, requests sent plus the one pending at the start never exceed settlements plus the one pending at the end |
| Submission.AtMostOnePostWithoutSettlement | event-registration-form-main/src/pages/Registration.tsx:294-298 | repeated submits with no settlement send at most one request, and none while one is already in flight |
| Submission.SubmitAndDeliver | event-registration-form-main/src/pages/Registration.tsx:53-83 | a valid draft submitted and delivered sends one request carrying the draft, shows the success toast, schedules one redirect and ends Succeeded with the draft intact |
| Submission.SubmitAndFail | event-registration-form-main/src/pages/Registration.tsx:53-89 | a valid draft met by a network error sends one request, shows the failure toast and returns to Editing with the same draft |
| Submission.RejectedSubmitChangesNothing | event-registration-form-main/src/pages/Registration.tsx:37-51 | submitting an invalid draft from Editing shows only the rejection's toast and changes nothing |

## Left out

- The webhook request itself is not modelled: URL, `no-cors` mode, headers and JSON serialisation are network I/O. The model records the body as a `Post` effect. The request's result is an input, and a request that does not throw counts as `Delivered`.
- The clock read for the timestamp is not modelled. The timestamp is an opaque input string.
- `setTimeout` and `window.location` are not modelled. The scheduled redirect is recorded as a `Redirect` effect with its delay and target.
- Toast rendering and `console.error` are not modelled. Toast texts are recorded as effects.
- Browser constraint validation is not modelled: `required`, `pattern`, `maxLength`, `min`, and number-input value sanitisation. This is DOM behaviour that can stop a submit event before the handler runs. The model starts at the handler.
- JSX rendering and animation are not modelled. The only rendering facts kept are these: the success view replaces the form, and the submit button is disabled while `isSubmitting` is true.
- React's update batching and event timing are not modelled. Each event sees the state left by the previous one.
- JsParseInt.ParseInt: the contract gives NaN, zero and sign, not the exact number. Exact values are stated by `ParseIntOfDecimal` and `ParseIntOfHex`. The result is an exact integer, so Number rounding of very long numerals is not modelled. Rounding keeps the comparison with 1 unchanged. A `-0` result is modelled as 0, which compares with 1 the same way.
- JsParseInt.Evaluate: the contract gives NaN, zero and sign, not the value sign × digits-value of section 19.2.5 of ECMA-262. Exact values are stated by `ParseIntOfDecimal` and `ParseIntOfHex`, and sign and zero are all that decide `< 1`.
- JsText: unpaired surrogate code units are not modelled. JavaScript strings can hold them, but a Dafny `char` is a Unicode scalar value. Such strings have no counterpart in the model.
- JsParseInt: only the radix-less call is modelled, because the handler passes no radix.
- MenuBar.tsx, Landing.tsx, main.tsx and Layout.tsx are not modelled. They are presentation, routing and a menu toggle, with no domain logic.

=== FILE: draft.dfy ===
/** The registration form's field values (`formData` in the page component)
    and the two change handlers that edit them. Every field holds the text
    the browser reports for its control; `stream` holds the value of the
    selected radio item. */
module RegistrationDraft {
  import opened Wrappers

  datatype Draft = Draft(
    collegeName: string,
    collegeAddress: string,
    facultyInchargeName: string,
    contactNumber: string,
    email: string,
    participants: string,
    stream: string)

  /** The draft the form mounts with: every field empty, stream "Commerce". */
  const Initial: Draft := Draft("", "", "", "", "", "", "Commerce")

  /** The keys of the form-data record. */
  datatype Field =
    | CollegeName
    | CollegeAddress
    | FacultyInchargeName
    | ContactNumber
    | Email
    | Participants
    | Stream

  /** The property name of each field, which is also the `name` attribute of
      the control that edits it. */
  function KeyOf(f: Field): string {
    match f
    case CollegeName => "collegeName"
    case CollegeAddress => "collegeAddress"
    case FacultyInchargeName => "facultyInchargeName"
    case ContactNumber => "contactNumber"
    case Email => "email"
    case Participants => "participants"
    case Stream => "stream"
  }

  /** The field a property name denotes, if any. */
  function FieldNamed(name: string): (r: Option<Field>)
    ensures forall f :: r == Some(f) <==> KeyOf(f) == name
  {
    if name == "collegeName" then Some(CollegeName)
    else if name == "collegeAddress" then Some(CollegeAddress)
    else if name == "facultyInchargeName" then Some(FacultyInchargeName)
    else if name == "contactNumber" then Some(ContactNumber)
    else if name == "email" then Some(Email)
    else if name == "participants" then Some(Participants)
    else if name == "stream" then Some(Stream)
    else None
  }

  function Get(d: Draft, f: Field): string {
    match f
    case CollegeName => d.collegeName
    case CollegeAddress => d.collegeAddress
    case FacultyInchargeName => d.facultyInchargeName
    case ContactNumber => d.contactNumber
    case Email => d.email
    case Participants => d.participants
    case Stream => d.stream
  }

  /** Replace one field; every other field keeps its value. */
  function Set(d: Draft, f: Field, v: string): (r: Draft)
    ensures Get(r, f) == v
    ensures forall g :: g != f ==> Get(r, g) == Get(d, g)
  {
    match f
    case CollegeName => d.(collegeName := v)
    case CollegeAddress => d.(collegeAddress := v)
    case FacultyInchargeName => d.(facultyInchargeName := v)
    case ContactNumber => d.(contactNumber := v)
    case Email => d.(email := v)
    case Participants => d.(participants := v)
    case Stream => d.(stream := v)
  }

  /** The text-input handler: `{ ...prev, [name]: value }`. The property named
      by the event takes the new value and every other property keeps its
      old one. A name that is not a form-data key only adds a property that
      nothing reads, so the draft's fields are unchanged. */
  function HandleInputChange(d: Draft, name: string, value: string): (r: Draft)
    ensures forall f :: Get(r, f) == (if KeyOf(f) == name then value else Get(d, f))
  {
    match FieldNamed(name)
    case Some(f) => Set(d, f, value)
    case None => d
  }

  /** The radio-group handler: only `stream` changes. */
  function HandleStreamChange(d: Draft, value: string): (r: Draft)
    ensures r.stream == value
    ensures forall f :: f != Stream ==> Get(r, f) == Get(d, f)
  {
    d.(stream := value)
  }

  /** The stream handler is the input handler for the name "stream". */
  lemma StreamChangeIsInputChange(d: Draft, value: string)
    ensures HandleStreamChange(d, value) == HandleInputChange(d, "stream", value)
  {
  }

  /** The last edit of a field wins: editing it twice is editing it once with
      the second value. */
  lemma LastEditWins(d: Draft, name: string, v1: string, v2: string)
    ensures HandleInputChange(HandleInputChange(d, name, v1), name, v2) == HandleInputChange(d, name, v2)
  {
  }

  /** Edits of two different fields commute. */
  lemma EditsOfDistinctFieldsCommute(d: Draft, n1: string, v1: string, n2: string, v2: string)
    requires n1 != n2
    ensures HandleInputChange(HandleInputChange(d, n1, v1), n2, v2)
         == HandleInputChange(HandleInputChange(d, n2, v2), n1, v1)
  {
  }

  /** Writing back the value a field already holds changes nothing. */
  lemma EditWithCurrentValueIsNoOp(d: Draft, f: Field)
    ensures HandleInputChange(d, KeyOf(f), Get(d, f)) == d
  {
  }
}

=== FILE: js_parse_int.dfy ===
/** JavaScript's global `parseInt(string)` called without a radix, as defined
    in section 19.2.5 of ECMA-262: leading whitespace is skipped, one optional
    sign is read, a `0x`/`0X` prefix selects base 16 (otherwise base 10), the
    longest prefix of digits valid in that base is read, and an empty digit
    prefix yields NaN (`None` here). */
module JsParseInt {
  import opened Wrappers
  import opened JsText

  /** The value of `c` as a digit in any radix up to 36 (`0`-`9`, then the
      letters in either case); 36 for every other character. */
  function DigitValue(c: char): (v: nat)
    ensures v <= 36
    ensures v < 10 <==> '0' <= c <= '9'
    ensures v == 0 <==> c == '0'
  {
    if '0' <= c <= '9' then c as int - '0' as int
    else if 'a' <= c <= 'z' then c as int - 'a' as int + 10
    else if 'A' <= c <= 'Z' then c as int - 'A' as int + 10
    else 36
  }

  /** A digit or letter is neither whitespace nor a sign. */
  lemma AlphanumericIsNotSpaceOrSign(c: char)
    requires DigitValue(c) < 36
    ensures !IsStrWhiteSpace(c) && c != '-' && c != '+'
  {
  }

  predicate AllDigits(ds: string, radix: nat) {
    forall i :: 0 <= i < |ds| ==> DigitValue(ds[i]) < radix
  }

  /** The canonical (lower-case) digit for the value `d`. */
  function DigitChar(d: nat): (c: char)
    requires d < 36
    ensures DigitValue(c) == d
  {
    if d < 10 then ('0' as int + d) as char else ('a' as int + d - 10) as char
  }

  /** The longest prefix of `s` made of digits valid in `radix`. */
  function DigitPrefix(s: string, radix: nat): (z: string)
    ensures z <= s
    ensures AllDigits(z, radix)
    ensures |z| < |s| ==> DigitValue(s[|z|]) >= radix
  {
    if |s| > 0 && DigitValue(s[0]) < radix then [s[0]] + DigitPrefix(s[1..], radix) else []
  }

  /** The mathematical value of a digit string read most-significant first. */
  function Value(ds: string, radix: nat): nat
    requires AllDigits(ds, radix)
  {
    if |ds| == 0 then 0
    else Value(ds[..|ds| - 1], radix) * radix + DigitValue(ds[|ds| - 1])
  }

  /** What the scanning steps of parseInt extract from the input: the sign,
      the radix chosen by the prefix rule, and the digits that are evaluated. */
  datatype Numeral = Numeral(negative: bool, radix: nat, digits: string)

  /** Steps 4-5: one leading `-` makes the result negative; one leading sign
      of either kind is dropped. */
  function StripSign(t: string): (bool, string) {
    if |t| > 0 && (t[0] == '-' || t[0] == '+') then (t[0] == '-', t[1..]) else (false, t)
  }

  predicate HasHexPrefix(u: string) {
    |u| >= 2 && u[0] == '0' && (u[1] == 'x' || u[1] == 'X')
  }

  /** Steps 6-10 with the radix undefined: `0x`/`0X` selects 16 and is
      dropped, otherwise the radix is 10. */
  function SelectRadix(u: string): (nat, string) {
    if HasHexPrefix(u) then (16, u[2..]) else (10, u)
  }

  function Scan(s: string): (n: Numeral)
    ensures n.radix == 10 || n.radix == 16
    ensures AllDigits(n.digits, n.radix)
  {
    var (negative, u) := StripSign(TrimStart(s));
    var (radix, body) := SelectRadix(u);
    Numeral(negative, radix, DigitPrefix(body, radix))
  }

  predicate AllZeros(ds: string) {
    forall i :: 0 <= i < |ds| ==> ds[i] == '0'
  }

  /** A digit string has value zero exactly when every digit is `0`. */
  lemma {:induction false} ValueZeroIff(ds: string, radix: nat)
    requires radix >= 1 && AllDigits(ds, radix)
    ensures Value(ds, radix) == 0 <==> AllZeros(ds)
  {
    if |ds| > 0 {
      var init := ds[..|ds| - 1];
      assert AllDigits(init, radix);
      ValueZeroIff(init, radix);
      assert AllZeros(ds) <==> AllZeros(init) && ds[|ds| - 1] == '0';
    }
  }

  /** Steps 14-16: the scanned sign applied to the digits' value. */
  function Signed(negative: bool, v: nat): int {
    if negative then -(v as int) else v
  }

  /** Steps 13-16: no digits is NaN, otherwise the signed value. The sign of
      the result is fixed by the scanned sign and whether any digit is
      non-zero; -0 is reported as 0, which compares like it. */
  function Evaluate(n: Numeral): (r: Option<int>)
    requires n.radix >= 1 && AllDigits(n.digits, n.radix)
    ensures r.None? <==> |n.digits| == 0
    ensures r.Some? ==> (r.value == 0 <==> AllZeros(n.digits))
    ensures r.Some? ==> (r.value < 0 <==> n.negative && !AllZeros(n.digits))
  {
    if |n.digits| == 0 then None
    else
      ValueZeroIff(n.digits, n.radix);
      Some(Signed(n.negative, Value(n.digits, n.radix)))
  }

  /** `parseInt(s)`; `None` is NaN. */
  function ParseInt(s: string): (r: Option<int>)
    ensures r.None? <==> |Scan(s).digits| == 0
    ensures r.Some? ==> (r.value == 0 <==> AllZeros(Scan(s).digits))
    ensures r.Some? ==> (r.value < 0 <==> Scan(s).negative && !AllZeros(Scan(s).digits))
  {
    Evaluate(Scan(s))
  }

  /** The digits of `n` in `radix`, most significant first, no leading zeros. */
  function ToDigits(n: nat, radix: nat): (ds: string)
    requires 2 <= radix <= 36
    ensures |ds| > 0 && AllDigits(ds, radix)
    decreases n
  {
    if n < radix then [DigitChar(n)]
    else
      DivideByRadix(n, radix);
      ToDigits(n / radix, radix) + [DigitChar(n % radix)]
  }

  /** Euclidean division by a radix of at least 2 shrinks a number that is
      at least the radix, without reaching zero. */
  lemma DivideByRadix(n: nat, radix: nat)
    requires 2 <= radix <= n
    ensures 0 < n / radix < n
    ensures n == n / radix * radix + n % radix
  {
    var q := n / radix;
    assert q * radix == q * 2 + q * (radix - 2);
    assert q * (radix - 2) >= 0;
  }

  /** Reading back the digits of a number yields the number. */
  lemma {:induction false} ValueOfToDigits(n: nat, radix: nat)
    requires 2 <= radix <= 36
    ensures Value(ToDigits(n, radix), radix) == n
    decreases n
  {
    if n >= radix {
      DivideByRadix(n, radix);
      var q, d := n / radix, n % radix;
      var ds := ToDigits(n, radix);
      var init := ToDigits(q, radix);
      assert ds == init + [DigitChar(d)];
      assert ds[..|ds| - 1] == init;
      ValueOfToDigits(q, radix);
    }
  }

  /** A digit string followed by a non-digit is exactly the digit prefix. */
  lemma {:induction false} DigitPrefixStopsAtNonDigit(ds: string, rest: string, radix: nat)
    requires AllDigits(ds, radix)
    requires |rest| == 0 || DigitValue(rest[0]) >= radix
    ensures DigitPrefix(ds + rest, radix) == ds
  {
    if |ds| > 0 {
      assert (ds + rest)[1..] == ds[1..] + rest;
      DigitPrefixStopsAtNonDigit(ds[1..], rest, radix);
    } else {
      assert ds + rest == rest;
    }
  }

  /** The plain positional decimal rendering of an integer: an optional `-`
      followed by its digits without leading zeros. */
  function Decimal(n: int): string {
    if n < 0 then "-" + ToDigits(-n, 10) else ToDigits(n, 10)
  }

  /** Leading whitespace does not change what is scanned. */
  lemma ScanSkipsWhiteSpace(ws: string, s: string)
    requires AllWhiteSpace(ws)
    ensures Scan(ws + s) == Scan(s)
  {
    TrimStartSkipsWhiteSpace(ws, s);
  }

  /** Scanning an unsigned digit string followed by a non-digit. */
  lemma ScanOfDigits(ds: string, rest: string)
    requires |ds| > 0 && AllDigits(ds, 10)
    requires |rest| == 0 || DigitValue(rest[0]) >= 10
    requires ds[0] == '0' && |rest| > 0 ==> rest[0] != 'x' && rest[0] != 'X'
    requires |ds| > 1 ==> ds[0] != '0'
    ensures SelectRadix(ds + rest) == (10, ds + rest)
    ensures DigitPrefix(ds + rest, 10) == ds
    ensures Scan(ds + rest) == Numeral(false, 10, ds)
  {
    var u := ds + rest;
    assert u[0] == ds[0];
    AlphanumericIsNotSpaceOrSign(ds[0]);
    TrimStartKeepsNonWhiteSpace(u);
    assert StripSign(u) == (false, u);
    assert !HasHexPrefix(u) by {
      if |u| >= 2 && u[0] == '0' {
        assert |ds| == 1;
        assert u[1] == rest[0];
      }
    }
    DigitPrefixStopsAtNonDigit(ds, rest, 10);
  }

  /** A decimal rendering never starts with a redundant zero. */
  lemma {:induction false} ToDigitsNoLeadingZero(n: nat, radix: nat)
    requires 2 <= radix <= 36
    ensures var ds := ToDigits(n, radix); |ds| > 1 ==> ds[0] != '0'
    ensures ToDigits(n, radix) == [DigitChar(0)] <==> n == 0
    decreases n
  {
    if n >= radix {
      DivideByRadix(n, radix);
      var q := n / radix;
      ToDigitsNoLeadingZero(q, radix);
      assert ToDigits(n, radix)[0] == ToDigits(q, radix)[0];
    }
  }

  /** Scanning after an optional leading `-`, when what follows neither
      starts with whitespace nor with another sign. */
  lemma ScanOfSigned(negative: bool, u: string)
    requires |u| > 0 && !IsStrWhiteSpace(u[0]) && u[0] != '-' && u[0] != '+'
    ensures Scan((if negative then "-" else "") + u)
            == Numeral(negative, SelectRadix(u).0, DigitPrefix(SelectRadix(u).1, SelectRadix(u).0))
  {
    var t := (if negative then "-" else "") + u;
    TrimStartKeepsNonWhiteSpace(t);
    if negative {
      assert t[1..] == u;
    } else {
      assert t == u;
    }
    assert StripSign(t) == (negative, u);
  }

  /** parseInt of whitespace followed by text `t` is parseInt of `t`. */
  lemma ParseIntSkipsWhiteSpace(ws: string, t: string)
    requires AllWhiteSpace(ws)
    ensures ParseInt(ws + t) == ParseInt(t)
  {
    ScanSkipsWhiteSpace(ws, t);
  }

  /** Scanning a signed decimal digit string without redundant leading
      zeros, followed by text that cannot continue the numeral. */
  lemma ScanOfDecimal(negative: bool, ds: string, rest: string)
    requires |ds| > 0 && AllDigits(ds, 10) && (|ds| > 1 ==> ds[0] != '0')
    requires |rest| == 0 || DigitValue(rest[0]) >= 10
    requires ds[0] == '0' && |rest| > 0 ==> rest[0] != 'x' && rest[0] != 'X'
    ensures Scan((if negative then "-" else "") + (ds + rest)) == Numeral(negative, 10, ds)
  {
    var u := ds + rest;
    ScanOfDigits(ds, rest);
    assert u[0] == ds[0];
    AlphanumericIsNotSpaceOrSign(ds[0]);
    ScanOfSigned(negative, u);
  }

  /** parseInt inverts decimal rendering, whatever whitespace precedes the
      number and whatever non-digit text follows it (short of an `x` right
      after a lone `0`, which would read as a hexadecimal prefix). */
  lemma ParseIntOfDecimal(ws: string, n: int, rest: string)
    requires AllWhiteSpace(ws)
    requires |rest| == 0 || DigitValue(rest[0]) >= 10
    requires n == 0 && |rest| > 0 ==> rest[0] != 'x' && rest[0] != 'X'
    ensures ParseInt(ws + Decimal(n) + rest) == Some(n)
  {
    var m: nat := if n < 0 then -n else n;
    var ds := ToDigits(m, 10);
    var sign := if n < 0 then "-" else "";
    var t := sign + (ds + rest);
    assert ws + Decimal(n) + rest == ws + t by {
      assert Decimal(n) == sign + ds;
      ConcatAssoc(ws, sign + ds, rest);
      ConcatAssoc(sign, ds, rest);
    }
    ParseIntSkipsWhiteSpace(ws, t);
    ToDigitsNoLeadingZero(m, 10);
    ScanOfDecimal(n < 0, ds, rest);
    ValueOfToDigits(m, 10);
  }

  /** Scanning a signed `0x`-prefixed hexadecimal digit string followed by
      text that cannot continue the numeral. */
  lemma ScanOfHex(negative: bool, ds: string, rest: string)
    requires |ds| > 0 && AllDigits(ds, 16)
    requires |rest| == 0 || DigitValue(rest[0]) >= 16
    ensures Scan((if negative then "-" else "") + ("0x" + (ds + rest))) == Numeral(negative, 16, ds)
  {
    var u := "0x" + (ds + rest);
    assert SelectRadix(u) == (16, ds + rest);
    DigitPrefixStopsAtNonDigit(ds, rest, 16);
    ScanOfSigned(negative, u);
  }

  /** parseInt reads a `0x`-prefixed hexadecimal numeral, optionally signed,
      up to the first non-hexadecimal character. */
  lemma ParseIntOfHex(ws: string, negative: bool, n: nat, rest: string)
    requires AllWhiteSpace(ws)
    requires |rest| == 0 || DigitValue(rest[0]) >= 16
    ensures ParseInt(ws + (if negative then "-" else "") + "0x" + ToDigits(n, 16) + rest)
            == Some(Signed(negative, n))
  {
    var ds := ToDigits(n, 16);
    var sign := if negative then "-" else "";
    var t := sign + ("0x" + (ds + rest));
    assert ws + sign + "0x" + ds + rest == ws + t by {
      ConcatAssoc(ws + sign, "0x", ds);
      ConcatAssoc(ws + sign, "0x" + ds, rest);
      ConcatAssoc("0x", ds, rest);
      ConcatAssoc(ws, sign, "0x" + (ds + rest));
    }
    ParseIntSkipsWhiteSpace(ws, t);
    ScanOfHex(negative, ds, rest);
    ValueOfToDigits(n, 16);
  }
}

=== FILE: js_text.dfy ===
/** The two pieces of JavaScript string semantics the registration form
    relies on: the whitespace that `parseInt` skips, and `String.length`,
    which counts UTF-16 code units rather than characters. Strings here are
    sequences of Unicode scalar values (Dafny's `char`). */
module JsText {

  /** ECMA-262 WhiteSpace (section 12.2) and LineTerminator (section 12.3)
      code points: exactly the characters `TrimString(_, start)` removes. */
  predicate IsStrWhiteSpace(c: char) {
    || c == '\t' || c == '\U{000B}' || c == '\U{000C}' || c == ' '
    || c == '\U{00A0}' || c == '\U{FEFF}' || c == '\U{1680}'
    || ('\U{2000}' <= c <= '\U{200A}')
    || c == '\U{202F}' || c == '\U{205F}' || c == '\U{3000}'
    || c == '\n' || c == '\r' || c == '\U{2028}' || c == '\U{2029}'
  }

  predicate AllWhiteSpace(s: string) {
    forall i :: 0 <= i < |s| ==> IsStrWhiteSpace(s[i])
  }

  /** Leading-whitespace removal: the result is the suffix of `s` that is left
      after dropping every leading whitespace character, and no more. */
  function TrimStart(s: string): (t: string)
    ensures |t| <= |s| && t == s[|s| - |t|..]
    ensures AllWhiteSpace(s[..|s| - |t|])
    ensures |t| > 0 ==> !IsStrWhiteSpace(t[0])
  {
    if |s| > 0 && IsStrWhiteSpace(s[0]) then TrimStart(s[1..]) else s
  }

  /** Prepending whitespace never changes what trimming leaves. */
  lemma {:induction false} TrimStartSkipsWhiteSpace(ws: string, s: string)
    requires AllWhiteSpace(ws)
    ensures TrimStart(ws + s) == TrimStart(s)
  {
    if |ws| > 0 {
      assert (ws + s)[1..] == ws[1..] + s;
      TrimStartSkipsWhiteSpace(ws[1..], s);
    } else {
      assert ws + s == s;
    }
  }

  /** A string that does not start with whitespace is left alone. */
  lemma TrimStartKeepsNonWhiteSpace(s: string)
    requires |s| > 0 && !IsStrWhiteSpace(s[0])
    ensures TrimStart(s) == s
  {
  }

  /** Regrouping a concatenation, stated once so that proofs about longer
      strings need not rediscover it. */
  lemma ConcatAssoc(a: string, b: string, c: string)
    ensures a + b + c == a + (b + c)
  {
  }

  /** Characters of the Basic Multilingual Plane take one UTF-16 code unit;
      all others take a surrogate pair. */
  predicate InBmp(c: char) {
    c as int < 0x1_0000
  }

  /** JavaScript's `String.prototype.length`: the number of UTF-16 code units. */
  function Utf16Length(s: string): (n: nat)
    ensures |s| == 1 ==> n == (if InBmp(s[0]) then 1 else 2)
    ensures |s| <= n <= 2 * |s|
    ensures n == |s| <==> forall i :: 0 <= i < |s| ==> InBmp(s[i])
  {
    if |s| == 0 then 0
    else
      var rest := Utf16Length(s[1..]);
      assert forall i :: 1 <= i < |s| ==> s[i] == s[1..][i - 1];
      (if InBmp(s[0]) then 1 else 2) + rest
  }

  /** The code-unit count of a concatenation is the sum of the parts' counts,
      so with the single-character case the count of every string is fixed:
      one unit per Basic Multilingual Plane character, two for any other. */
  lemma {:induction false} Utf16LengthOfConcat(a: string, b: string)
    ensures Utf16Length(a + b) == Utf16Length(a) + Utf16Length(b)
  {
    if |a| == 0 {
      assert a + b == b;
    } else {
      assert (a + b)[0] == a[0];
      assert (a + b)[1..] == a[1..] + b;
      Utf16LengthOfConcat(a[1..], b);
    }
  }
}

=== FILE: payload.dfy ===
/** The record `handleSubmit` sends to the spreadsheet webhook: every draft
    field copied as typed, the email replaced by a fixed sentinel when it was
    left blank, and a timestamp taken at submission. JSON serialisation and
    the request itself are not modelled. */
module Payload {
  import opened RegistrationDraft

  /** The text sent in place of an email address that was left empty. */
  const NotProvided: string := "Not provided"

  datatype Payload = Payload(
    collegeName: string,
    collegeAddress: string,
    facultyInchargeName: string,
    contactNumber: string,
    email: string,
    participants: string,
    stream: string,
    timestamp: string)

  /** `formData.email || "Not provided"`: only the empty string is falsy. */
  function EmailOrSentinel(email: string): (r: string)
    ensures r != ""
    ensures email == "" ==> r == NotProvided
    ensures email != "" ==> r == email
  {
    if email == "" then NotProvided else email
  }

  /** Build the body from the draft; `timestamp` stands for the ISO-8601
      instant read from the clock, which the model takes as an input. */
  function BuildPayload(d: Draft, timestamp: string): (p: Payload)
    ensures p.collegeName == d.collegeName && p.collegeAddress == d.collegeAddress
    ensures p.facultyInchargeName == d.facultyInchargeName && p.contactNumber == d.contactNumber
    ensures p.participants == d.participants && p.stream == d.stream
    ensures p.timestamp == timestamp
    ensures p.email == NotProvided <==> d.email == "" || d.email == NotProvided
    ensures p.email != NotProvided ==> p.email == d.email
  {
    Payload(d.collegeName, d.collegeAddress, d.facultyInchargeName, d.contactNumber,
            EmailOrSentinel(d.email), d.participants, d.stream, timestamp)
  }

  /** Read a payload back as a draft, taking the sentinel for a blank email. */
  function DraftOf(p: Payload): Draft {
    Draft(p.collegeName, p.collegeAddress, p.facultyInchargeName, p.contactNumber,
          if p.email == NotProvided then "" else p.email, p.participants, p.stream)
  }

  /** The payload determines the draft except in one case: an email typed as
      the sentinel text itself is indistinguishable from a blank one. */
  lemma DraftOfBuildPayload(d: Draft, timestamp: string)
    ensures DraftOf(BuildPayload(d, timestamp)) == d <==> d.email != NotProvided
  {
  }

  /** Two drafts give the same payload exactly when they agree on every field
      but the email, and their emails agree or are blank and the sentinel. */
  lemma BuildPayloadCollisions(d1: Draft, d2: Draft, timestamp: string)
    ensures BuildPayload(d1, timestamp) == BuildPayload(d2, timestamp)
            <==> d1.(email := "") == d2.(email := "")
                 && (d1.email == d2.email || {d1.email, d2.email} == {"", NotProvided})
  {
    var p1, p2 := BuildPayload(d1, timestamp), BuildPayload(d2, timestamp);
    if {d1.email, d2.email} == {"", NotProvided} {
      assert d1.email in {"", NotProvided} && d2.email in {"", NotProvided};
    }
    if p1 == p2 && d1.email != d2.email {
      assert d1.email == "" || d1.email == NotProvided;
      assert d2.email == "" || d2.email == NotProvided;
      if d1.email == "" {
        assert d2.email == NotProvided;
      } else {
        assert d2.email == "";
      }
    }
  }
}

=== FILE: submission.dfy ===
/** The registration page as a state machine over (isSubmitting, isSuccess,
    formData). Three phases are reachable: Editing (neither flag), Submitting
    (isSubmitting only) and Succeeded (isSuccess, with isSubmitting still
    set). The outcome of the webhook request is an input: with an opaque
    response, any request that does not throw counts as delivered. */
module Submission {
  import opened RegistrationDraft
  import opened Validation
  import opened Payload

  datatype State = State(isSubmitting: bool, isSuccess: bool, draft: Draft)

  /** The page as it mounts. */
  const Mount: State := State(false, false, Initial)

  datatype Phase = Editing | Submitting | Succeeded

  function PhaseOf(s: State): Phase {
    if s.isSuccess then Succeeded else if s.isSubmitting then Submitting else Editing
  }

  /** Success is only ever set while a submission is in flight, and that flag
      is not cleared afterwards. */
  predicate Consistent(s: State) {
    s.isSuccess ==> s.isSubmitting
  }

  /** The phase transitions the page can make in one step. */
  predicate Legal(from: Phase, to: Phase) {
    || from == to
    || (from == Editing && to == Submitting)
    || (from == Submitting && to == Editing)
    || (from == Submitting && to == Succeeded)
  }

  /** How the awaited request ended. */
  datatype Outcome = Delivered | NetworkError

  /** What the user and the network can do to the page. */
  datatype Event =
    | Input(name: string, value: string)
    | StreamChange(value: string)
    | Submit(timestamp: string)
    | Settle(outcome: Outcome)

  /** Observable side effects: toasts, the webhook request, and the scheduled
      navigation to the event site. */
  datatype Effect =
    | ErrorToast(text: string)
    | SuccessToast(text: string)
    | Post(payload: Payload)
    | Redirect(delayMs: nat, url: string)

  datatype Reaction = Reaction(state: State, effects: seq<Effect>)

  const SuccessMessage: string := "\U{2705} Registration submitted! Redirecting..."
  const FailureMessage: string := "Failed to submit registration. Please try again."
  const RedirectDelayMs: nat := 2000
  const EventSite: string := "https://sites.google.com/klebcadwd.com/udgosh"

  /** The number of webhook requests among `effects`. */
  function Posts(effects: seq<Effect>): nat {
    if |effects| == 0 then 0 else (if effects[0].Post? then 1 else 0) + Posts(effects[1..])
  }

  /** The synchronous part of `handleSubmit`, up to the awaited request.
      A rejected draft only raises a toast: the flags and the draft stay as
      they were and no request is sent. An accepted draft sets isSubmitting
      and sends exactly one request, built from the draft as it stands. */
  function HandleSubmit(s: State, timestamp: string): (r: Reaction)
    ensures r.state.draft == s.draft && r.state.isSuccess == s.isSuccess
    ensures Validate(s.draft).Rejected? ==>
              r.state == s && r.effects == [ErrorToast(Message(Validate(s.draft).reason))]
    ensures Validate(s.draft) == Accepted ==>
              r.state.isSubmitting && r.effects == [Post(BuildPayload(s.draft, timestamp))]
    ensures Posts(r.effects) == (if Validate(s.draft) == Accepted then 1 else 0)
  {
    match Validate(s.draft)
    case Rejected(why) => Reaction(s, [ErrorToast(Message(why))])
    case Accepted =>
      Reaction(s.(isSubmitting := true), [Post(BuildPayload(s.draft, timestamp))])
  }

  /** The continuation of `handleSubmit` once the request settles. Delivery
      sets isSuccess, leaves isSubmitting alone, and schedules the redirect;
      a network error clears isSubmitting and keeps everything else. */
  function Resume(s: State, outcome: Outcome): (r: Reaction)
    ensures r.state.draft == s.draft
    ensures outcome == Delivered ==>
              r.state.isSuccess && r.state.isSubmitting == s.isSubmitting
              && r.effects == [SuccessToast(SuccessMessage), Redirect(RedirectDelayMs, EventSite)]
    ensures outcome == NetworkError ==>
              !r.state.isSubmitting && r.state.isSuccess == s.isSuccess
              && r.effects == [ErrorToast(FailureMessage)]
    ensures Posts(r.effects) == 0
  {
    match outcome
    case Delivered =>
      var effects := [SuccessToast(SuccessMessage), Redirect(RedirectDelayMs, EventSite)];
      assert Posts(effects[1..][1..]) == 0;
      assert Posts(effects[1..]) == 0;
      Reaction(s.(isSuccess := true), effects)
    case NetworkError =>
      Reaction(s.(isSubmitting := false), [ErrorToast(FailureMessage)])
  }

  /** One event delivered to the page. Once isSuccess is set the page renders
      only the confirmation, so no control is left to act on and no request
      is pending. Until then the inputs stay enabled, so edits apply in the
      Submitting phase too. The submit button is disabled while isSubmitting,
      so a submission is not delivered then. A request only settles while one
      is in flight, which is exactly the Submitting phase. */
  function Dispatch(s: State, e: Event): (r: Reaction)
    ensures Consistent(s) ==> Consistent(r.state)
    ensures Legal(PhaseOf(s), PhaseOf(r.state))
    ensures PhaseOf(s) == Succeeded ==> r == Reaction(s, [])
    ensures Posts(r.effects) == (if PhaseOf(s) == Editing && PhaseOf(r.state) == Submitting then 1 else 0)
    ensures PhaseOf(r.state) == Succeeded && PhaseOf(s) != Succeeded <==> PhaseOf(s) == Submitting && e == Settle(Delivered)
    ensures r.state.draft != s.draft ==> e.Input? || e.StreamChange?
    ensures PhaseOf(s) != Succeeded && e.Input? ==>
              r == Reaction(s.(draft := HandleInputChange(s.draft, e.name, e.value)), [])
    ensures PhaseOf(s) != Succeeded && e.StreamChange? ==>
              r == Reaction(s.(draft := HandleStreamChange(s.draft, e.value)), [])
    ensures PhaseOf(s) == Submitting && e == Settle(NetworkError) ==>
              PhaseOf(r.state) == Editing && r.state.draft == s.draft && r.effects == [ErrorToast(FailureMessage)]
    ensures PhaseOf(s) == Editing && e.Submit? ==>
              (PhaseOf(r.state) == Submitting <==> Validate(s.draft) == Accepted)
    ensures PhaseOf(s) == Editing && e.Submit? ==>
              r.effects == (if Validate(s.draft) == Accepted then [Post(BuildPayload(s.draft, e.timestamp))]
                            else [ErrorToast(Message(Validate(s.draft).reason))])
    ensures PhaseOf(s) == Submitting && e.Submit? ==> r == Reaction(s, [])
    ensures PhaseOf(s) == Submitting && e == Settle(Delivered) ==>
              r.state == s.(isSuccess := true)
              && r.effects == [SuccessToast(SuccessMessage), Redirect(RedirectDelayMs, EventSite)]
  {
    if s.isSuccess then Reaction(s, [])
    else
      match e
      case Input(name, value) => Reaction(s.(draft := HandleInputChange(s.draft, name, value)), [])
      case StreamChange(value) => Reaction(s.(draft := HandleStreamChange(s.draft, value)), [])
      case Submit(timestamp) =>
        if s.isSubmitting then Reaction(s, []) else HandleSubmit(s, timestamp)
      case Settle(outcome) =>
        if s.isSubmitting then Resume(s, outcome) else Reaction(s, [])
  }

  /** A sequence of events, with the effects they cause in order. */
  function Run(s: State, events: seq<Event>): Reaction
    decreases |events|
  {
    if |events| == 0 then Reaction(s, [])
    else
      var first := Dispatch(s, events[0]);
      var rest := Run(first.state, events[1..]);
      Reaction(rest.state, first.effects + rest.effects)
  }

  /** The number of settlements among `events`. */
  function Settlements(events: seq<Event>): nat {
    if |events| == 0 then 0 else (if events[0].Settle? then 1 else 0) + Settlements(events[1..])
  }

  function InFlight(s: State): nat {
    if PhaseOf(s) == Submitting then 1 else 0
  }

  lemma {:induction false} PostsOfConcat(a: seq<Effect>, b: seq<Effect>)
    ensures Posts(a + b) == Posts(a) + Posts(b)
  {
    if |a| > 0 {
      assert (a + b)[1..] == a[1..] + b;
      PostsOfConcat(a[1..], b);
    } else {
      assert a + b == b;
    }
  }

  /** Every reachable state is consistent: isSuccess never holds without
      isSubmitting. */
  lemma {:induction false} RunPreservesConsistent(s: State, events: seq<Event>)
    requires Consistent(s)
    ensures Consistent(Run(s, events).state)
    decreases |events|
  {
    if |events| > 0 {
      RunPreservesConsistent(Dispatch(s, events[0]).state, events[1..]);
    }
  }

  /** Every state reachable from the mounted page is consistent, so the
      three phases are the only flag combinations that occur. */
  lemma ReachableStatesAreConsistent(events: seq<Event>)
    ensures Consistent(Run(Mount, events).state)
  {
    RunPreservesConsistent(Mount, events);
  }

  /** Succeeded is terminal: no sequence of events changes the page or
      causes any effect once the submission has been delivered. */
  lemma {:induction false} SucceededIsTerminal(s: State, events: seq<Event>)
    requires PhaseOf(s) == Succeeded
    ensures Run(s, events) == Reaction(s, [])
    decreases |events|
  {
    if |events| > 0 {
      SucceededIsTerminal(s, events[1..]);
    }
  }

  /** At most one request is ever in flight: over any sequence of events, the
      requests sent, plus the one already pending, are matched by the
      settlements received, plus the one left pending at the end. */
  lemma {:induction false} PostsAwaitSettlement(s: State, events: seq<Event>)
    ensures Posts(Run(s, events).effects) + InFlight(s)
            <= Settlements(events) + InFlight(Run(s, events).state)
    decreases |events|
  {
    if |events| > 0 {
      var first := Dispatch(s, events[0]);
      PostsAwaitSettlement(first.state, events[1..]);
      PostsOfConcat(first.effects, Run(first.state, events[1..]).effects);
    }
  }

  /** Repeated submit activations without a settlement send at most one
      request, and none at all if one is already in flight. */
  lemma AtMostOnePostWithoutSettlement(s: State, events: seq<Event>)
    requires Settlements(events) == 0
    ensures Posts(Run(s, events).effects) <= 1
    ensures PhaseOf(s) == Submitting ==> Posts(Run(s, events).effects) == 0
  {
    PostsAwaitSettlement(s, events);
  }

  /** A valid draft submitted from the editing phase and delivered: one
      request carrying the draft, the success toast, one scheduled redirect,
      and the page ends in Succeeded with the draft intact. */
  lemma SubmitAndDeliver(d: Draft, timestamp: string)
    requires Validate(d) == Accepted
    ensures Run(State(false, false, d), [Submit(timestamp), Settle(Delivered)])
            == Reaction(State(true, true, d),
                        [Post(BuildPayload(d, timestamp)), SuccessToast(SuccessMessage),
                         Redirect(RedirectDelayMs, EventSite)])
  {
    var evs := [Submit(timestamp), Settle(Delivered)];
    var submitted := Dispatch(State(false, false, d), evs[0]);
    assert submitted == Reaction(State(true, false, d), [Post(BuildPayload(d, timestamp))]);
    var settled := Dispatch(submitted.state, evs[1]);
    assert settled.state == State(true, true, d);
    assert evs[1..] == [evs[1]];
    assert Run(submitted.state, evs[1..]) == Reaction(settled.state, settled.effects + []);
  }

  /** A valid draft submitted and met by a network error: one request, the
      failure toast, and the page is back in Editing with the same draft. */
  lemma SubmitAndFail(d: Draft, timestamp: string)
    requires Validate(d) == Accepted
    ensures Run(State(false, false, d), [Submit(timestamp), Settle(NetworkError)])
            == Reaction(State(false, false, d),
                        [Post(BuildPayload(d, timestamp)), ErrorToast(FailureMessage)])
  {
    var evs := [Submit(timestamp), Settle(NetworkError)];
    var submitted := Dispatch(State(false, false, d), evs[0]);
    assert submitted == Reaction(State(true, false, d), [Post(BuildPayload(d, timestamp))]);
    var settled := Dispatch(submitted.state, evs[1]);
    assert settled.state == State(false, false, d);
    assert evs[1..] == [evs[1]];
    assert Run(submitted.state, evs[1..]) == Reaction(settled.state, settled.effects + []);
  }

  /** A rejected draft submitted from the editing phase: only the rejection
      toast; flags, draft and network are untouched. */
  lemma RejectedSubmitChangesNothing(s: State, timestamp: string)
    requires PhaseOf(s) == Editing && Validate(s.draft).Rejected?
    ensures Dispatch(s, Submit(timestamp)) == Reaction(s, [ErrorToast(Message(Validate(s.draft).reason))])
  {
  }
}

=== FILE: validation.dfy ===
/** The three client-side checks `handleSubmit` runs before anything else,
    in their fixed order; the first failing check decides the toast and ends
    the submission attempt. */
module Validation {
  import opened Wrappers
  import opened JsText
  import opened JsParseInt
  import opened RegistrationDraft

  datatype Rejection = MissingRequired | InvalidContact | TooFewParticipants

  datatype Verdict = Accepted | Rejected(reason: Rejection)

  /** The error toast shown for each rejection. */
  function Message(r: Rejection): string {
    match r
    case MissingRequired => "Please fill in all required fields"
    case InvalidContact => "Please enter a valid 10-digit contact number"
    case TooFewParticipants => "Number of participants must be at least 1"
  }

  /** Each rejection has its own toast, so the text tells which check failed. */
  lemma MessagesAreDistinct(a: Rejection, b: Rejection)
    ensures Message(a) == Message(b) <==> a == b
  {
  }

  /** Every field except the email address must be filled in. */
  predicate Required(f: Field) {
    f != Email
  }

  /** JavaScript truthiness of a string: only the empty string is falsy. */
  predicate RequiredPresent(d: Draft) {
    forall f :: Required(f) ==> Get(d, f) != ""
  }

  /** `contactNumber.length !== 10` fails; length counts UTF-16 code units. */
  predicate ContactLengthOk(contact: string) {
    Utf16Length(contact) == 10
  }

  /** `parseInt(participants) < 1`. NaN compares false with every number, so
      text that parseInt cannot read is NOT below one. */
  predicate ParticipantsBelowOne(participants: string) {
    match ParseInt(participants)
    case Some(v) => v < 1
    case None => false
  }

  /** The checks in source order. Each verdict is characterised by which
      checks hold, so the order is visible in the contract: a later check
      can only reject a draft every earlier check accepted. */
  function Validate(d: Draft): (r: Verdict)
    ensures r == Rejected(MissingRequired) <==> !RequiredPresent(d)
    ensures r == Rejected(InvalidContact) <==> RequiredPresent(d) && !ContactLengthOk(d.contactNumber)
    ensures r == Rejected(TooFewParticipants)
            <==> RequiredPresent(d) && ContactLengthOk(d.contactNumber) && ParticipantsBelowOne(d.participants)
    ensures r == Accepted
            <==> RequiredPresent(d) && ContactLengthOk(d.contactNumber) && !ParticipantsBelowOne(d.participants)
  {
    assert RequiredPresent(d) <==>
      Get(d, CollegeName) != "" && Get(d, CollegeAddress) != "" && Get(d, FacultyInchargeName) != ""
      && Get(d, ContactNumber) != "" && Get(d, Participants) != "" && Get(d, Stream) != "";
    if d.collegeName == "" || d.collegeAddress == "" || d.facultyInchargeName == ""
       || d.contactNumber == "" || d.participants == "" || d.stream == "" then
      Rejected(MissingRequired)
    else if Utf16Length(d.contactNumber) != 10 then
      Rejected(InvalidContact)
    else if ParticipantsBelowOne(d.participants) then
      Rejected(TooFewParticipants)
    else
      Accepted
  }

  /** The participants check rejects exactly the inputs parseInt reads as a
      number below one: some digits were read, and either the sign was `-`
      or every digit is zero. Input with no readable digits passes. */
  lemma ParticipantsBelowOneIff(p: string)
    ensures ParticipantsBelowOne(p)
            <==> |Scan(p).digits| > 0 && (Scan(p).negative || AllZeros(Scan(p).digits))
  {
  }

  /** For contact numbers made of Basic Multilingual Plane characters (digits
      among them) the check is a plain character count, whatever the
      characters are. */
  lemma ContactCheckIsCharacterCount(contact: string)
    requires forall i :: 0 <= i < |contact| ==> InBmp(contact[i])
    ensures ContactLengthOk(contact) <==> |contact| == 10
  {
  }

  /** The email address takes no part in validation. */
  lemma ValidateIgnoresEmail(d: Draft, email: string)
    ensures Validate(d.(email := email)) == Validate(d)
  {
  }

  /** A complete draft whose participants parse to a whole number of at
      least one is accepted. */
  lemma AcceptsCompleteDraft(d: Draft, v: int)
    requires RequiredPresent(d) && ContactLengthOk(d.contactNumber)
    requires ParseInt(d.participants) == Some(v) && v >= 1
    ensures Validate(d) == Accepted
  {
  }

  /** A complete draft whose participants text holds no readable number is
      accepted too, because NaN is not less than one. */
  lemma AcceptsUnreadableParticipants(d: Draft)
    requires RequiredPresent(d) && ContactLengthOk(d.contactNumber)
    requires ParseInt(d.participants) == None
    ensures Validate(d) == Accepted
  {
  }

  /** How the example inputs below are spelled as a rendered number between
      whitespace and trailing text. */
  lemma ExampleSpellings()
    ensures "" + "0" + "" == "0"
    ensures "" + "-3" + "" == "-3"
    ensures "" + "3" + "x" == "3x"
    ensures " " + "5" + "" == " 5"
    ensures "" + "" + "0x" + "10" + "" == "0x10"
  {
  }

  /** "0" is rejected by the participants check. */
  lemma ZeroCountRejected()
    ensures ParticipantsBelowOne("0")
  {
    assert Decimal(0) == "0";
    ParseIntOfDecimal("", 0, "");
    ExampleSpellings();
  }

  /** "-3" is rejected by the participants check. */
  lemma NegativeCountRejected()
    ensures ParticipantsBelowOne("-3")
  {
    assert Decimal(-3) == "-3";
    ParseIntOfDecimal("", -3, "");
    ExampleSpellings();
  }

  /** "3x" passes: parseInt stops at the first non-digit and reads 3. */
  lemma TrailingTextPasses()
    ensures !ParticipantsBelowOne("3x")
  {
    assert Decimal(3) == "3";
    ParseIntOfDecimal("", 3, "x");
    ExampleSpellings();
  }

  /** " 5" passes: leading whitespace is skipped. */
  lemma LeadingSpacePasses()
    ensures !ParticipantsBelowOne(" 5")
  {
    assert Decimal(5) == "5";
    ParseIntOfDecimal(" ", 5, "");
    ExampleSpellings();
  }

  /** "0x10" passes: the hexadecimal prefix makes it sixteen. */
  lemma HexCountPasses()
    ensures !ParticipantsBelowOne("0x10")
  {
    assert ToDigits(16, 16) == "10";
    ParseIntOfHex("", false, 16, "");
    ExampleSpellings();
  }

  /** "abc" passes: parseInt gives NaN, and NaN is not below one. */
  lemma UnreadableCountPasses()
    ensures !ParticipantsBelowOne("abc")
  {
    assert TrimStart("abc") == "abc";
    assert SelectRadix("abc") == (10, "abc");
    assert DigitValue('a') == 10;
    assert DigitPrefix("abc", 10) == "";
  }

  /** The contact check looks at length only: ten letters pass, and eleven
      characters with a space among them fail. */
  lemma ContactLengthIgnoresContent()
    ensures ContactLengthOk("abcdefghij")
    ensures !ContactLengthOk("98450 12345")
  {
  }

  /** Five characters outside the Basic Multilingual Plane pass the
      ten-character check: JavaScript counts each as two code units. */
  lemma ContactLengthCountsCodeUnits()
    ensures ContactLengthOk("\U{1F4DE}\U{1F4DE}\U{1F4DE}\U{1F4DE}\U{1F4DE}")
  {
  }
}

=== FILE: wrappers.dfy ===
/** Optional values, used for lookups and for the
    "not a number" result of integer parsing. */
module Wrappers {

  /** `None` stands for an absent value (JavaScript's NaN, an unknown key). */
  datatype Option<+T> = None | Some(value: T)
}
